=== FILE: README.md ===
# gen: MySQL column metadata to Go struct fields

This project models the core of the `dbmeta` package of the `gen` code
generator. For each column of a MySQL table, the package picks the Go type
of a struct field. It then writes the field line: the field name, the Go
type, and optional `gorm`, `validate` and `json` struct tags. The model
covers four parts:

- the table from MySQL type names to Go type names (`sqlTypeToGoType`) and
  the Go type-name constants;
- how `columnLength` extracts the declared length from a catalog
  `column_type` such as `varchar(255)`;
- the `strconv.ParseInt` call that turns that text into a number;
- the loop in `generateFieldsTypes` that turns columns into field lines.

Modules:

- `Wrappers`: `Option`, and `Outcome`, which carries a Go runtime panic as
  a value.
- `Text`: the string functions the code calls. These are `strings.ToLower`,
  `Index`, `LastIndex` and `Join`, plus a `Split` used to read joined text
  back.
- `Numbers`: `strconv.ParseInt(s, 10, 64)` with its error dropped, as the
  code drops it, and the `%d` formatting of an `int64`.
- `Schema`: the records the generator works on. These are the column (name,
  database type name, nullability), the `ColumnLength` fact, a catalog row,
  and the generator's switches: the `gorm`, `validate` and `json`
  annotations and the choice of guregu `null` types.
- `TypeMap`: the Go types, their spellings (lines 76-91), and the switch in
  `sqlTypeToGoType`.
- `Lengths`: `columnLength` over the catalog rows the query returns.
- `Sequences`: the "map, dropping skipped items" pattern of the field loop.
- `Fields`: the `validate` rules, the tag clauses, one field line, and
  `generateFieldsTypes`.

## Behaviours worth knowing

Two consequences of the code are easy to miss:

- Primary-key matching is not case-insensitive. Line 203 compares the
  lower-cased key with the primary-key names exactly as listed. A key
  stored as `ID` is therefore never marked
  (`Fields.UpperCasePrimaryKeyNotMarked`).
- A non-numeric length of at most 19 characters is recorded as 0 rather
  than skipped. Line 175 drops the parse error, so the `10,2` of
  `decimal(10,2)` gives length 0 (`Lengths.MalformedLengthIsZero`). A
  `varchar` column with such an entry gets the rule `max=0`. A longer text
  whose leading digits overflow is clamped to the int64 maximum or minimum
  instead, because `ParseInt` reports the overflow before it reaches the
  bad character (`Lengths.OverflowingLengthIsClamped`).

## Model

| member | source | states |
|---|---|---|
| TypeMap.Name | dbmeta/meta.go:77-90 | each Go type's spelling is non-empty, is not the unused `float`, and contains no backtick, so a type never breaks the tag quoting of a field line |
| TypeMap.NameRoundTrip | dbmeta/meta.go:76-91 | every Go type constant reads back as the type it names, so the spellings are pairwise distinct |
| TypeMap.Classify | dbmeta/meta.go:247-295 | a type falls into a case group exactly when it is one of the listed names, and then it is a member of that group |
| TypeMap.ClassifyMembers | dbmeta/meta.go:248-293 | every listed name is classified into its own group, so no name appears in two case lists |
| TypeMap.GroupType | dbmeta/meta.go:248-294 | binary types give `[]byte`; the result is a NULL wrapper exactly when the column is nullable, not binary, and (for date/time) guregu types are on; it is a guregu type exactly when nullable, guregu on and not binary |
| TypeMap.MapType | dbmeta/meta.go:246-297 | no type exactly for unlisted names; otherwise the type of a group that contains the name |
| TypeMap.SqlTypeToGoType | dbmeta/meta.go:246-297 | the empty string is returned exactly for unlisted names; the unused constant `float` is never returned; no answer contains a backtick |
| TypeMap.MapTypeOfMember | dbmeta/meta.go:247-294 | every member of a group is mapped by that group's branch |
| TypeMap.IntRow | dbmeta/meta.go:248-255 | tinyint/int/smallint/mediumint map to `int`, or to `null.Int`/`sql.NullInt64` when nullable, depending on guregu |
| TypeMap.BigIntRow | dbmeta/meta.go:256-263 | bigint maps to `int64`, or to `null.Int`/`sql.NullInt64` when nullable |
| TypeMap.TextRow | dbmeta/meta.go:264-271 | char/enum/varchar/text types map to `string`, or to `null.String`/`sql.NullString` when nullable |
| TypeMap.DateTimeRow | dbmeta/meta.go:272-276 | date/time types map to `time.Time` unless nullable with guregu on, which gives `null.Time` |
| TypeMap.DecimalRow | dbmeta/meta.go:277-284 | decimal/double map to `float64`, or to `null.Float`/`sql.NullFloat64` when nullable |
| TypeMap.FloatRow | dbmeta/meta.go:285-292 | float maps to `float32`, or to `null.Float`/`sql.NullFloat64` when nullable |
| TypeMap.BinaryIgnoresFlags | dbmeta/meta.go:293-294 | the binary and blob types map to `[]byte` whatever the nullability and guregu switches say |
| TypeMap.NonNullableIgnoresGuregu | dbmeta/meta.go:248-292 | for a NOT NULL column the guregu switch does not change the answer |
| TypeMap.SqlTypeToGoTypeReadsBack | dbmeta/meta.go:246-297 | a non-empty answer parses back to the type the table chose |
| Text.ToLower | dbmeta/meta.go:168-169 | the lower-cased name has the same length, has no upper-case letter, keeps every other character, and differs only in letter case |
| Text.IndexOf | dbmeta/meta.go:170 | -1 exactly when the character is absent, otherwise the position of its first occurrence |
| Text.LastIndexOf | dbmeta/meta.go:171 | -1 exactly when the character is absent, otherwise the position of its last occurrence |
| Text.SplitJoin | dbmeta/meta.go:223 | joining one or more parts that avoid the separator and splitting again gives back the parts (no parts join to `""`, which splits into one empty part) |
| Numbers.ParseInt64 | dbmeta/meta.go:175 | a well-formed decimal parses to its value clamped to the int64 range; anything else gives 0 or a clamped bound; the empty text gives 0 |
| Numbers.ShortMalformedIsZero | dbmeta/meta.go:175 | a text of at most 19 characters that is not a decimal number parses to 0 because the error is dropped |
| Numbers.OverflowingPrefixClamps | dbmeta/meta.go:175 | digits whose value passes the largest uint64 parse to the int64 maximum, or with a leading `-` to the minimum, whatever characters follow them |
| Numbers.IntToString | dbmeta/meta.go:219 | the `%d` spelling is non-empty and consists of digits with at most a leading minus sign |
| Numbers.ParseIntToString | dbmeta/meta.go:219 | parsing the `%d` spelling of an int64 gives the number back |
| Lengths.LengthText | dbmeta/meta.go:170-175 | the slice `columnType[Index("(")+1:LastIndex(")")]` is shorter than the type, and without a `(` it is the text before the last `)`: a `)` follows it and none comes after that one |
| Lengths.ExtractLength | dbmeta/meta.go:170-177 | no length exactly when the type has no `)`; a panic exactly when the first `(` follows the last `)`; otherwise the lower-cased name with the parse of the text between them |
| Lengths.ExtractParenthesized | dbmeta/meta.go:170-176 | for `base(text)suffix`, with no `(` in `base` and no `)` in `suffix`, the recorded length is the parse of `text`, whatever `text` holds |
| Lengths.ExtractDeclaredLength | dbmeta/meta.go:170-176 | `base(n)suffix`, as in `int(10) unsigned`, with no `(` in `base` and no `)` in `suffix`, records exactly `n` |
| Lengths.ExtractWithoutOpenParen | dbmeta/meta.go:170-176 | without a `(` the text parsed is everything before the last `)` |
| Lengths.MalformedLengthIsZero | dbmeta/meta.go:175-177 | with no `(` in `base` and no `)` in `suffix`, a non-numeric parenthesized text of at most 19 characters is recorded with length 0, not skipped |
| Lengths.OverflowingLengthIsClamped | dbmeta/meta.go:170-177 | with no `(` in `base` and no `)` in `suffix`, a parenthesized text whose leading digits pass the largest uint64 is recorded with the int64 maximum, or the minimum after a `-`, whatever follows the digits |
| Lengths.MatchCount | dbmeta/meta.go:167-169 | the number of columns whose lower-cased name equals the row's is at most the number of columns, and zero exactly when no column belongs to the row |
| Lengths.RowLengths | dbmeta/meta.go:167-179 | a panic exactly when some column belongs to the row and the row's bounds are reversed; nothing for a type without `)` or a row no column belongs to; every entry is the row's extracted length; when the row records a length, exactly one entry per column that belongs to it |
| Lengths.ColumnLengths | dbmeta/meta.go:158-181 | the whole pass panics exactly when some row panics |
| Lengths.LengthEntriesComeFromRows | dbmeta/meta.go:158-181 | every recorded entry is the extracted length of some catalog row |
| Lengths.LengthEntriesCount | dbmeta/meta.go:158-181 | the number of entries is the sum, over the rows that record a length, of the number of columns belonging to each |
| Lengths.LengthEntriesComplete | dbmeta/meta.go:158-181 | every row that records a length and to which some column belongs has its entry among the results |
| Lengths.LengthEntriesBound | dbmeta/meta.go:158-181 | at most rows times columns entries are recorded |
| Lengths.NoParenthesesNoLengths | dbmeta/meta.go:170-174 | a catalog whose types carry no `)` records no lengths |
| Lengths.SingleRowSingleColumn | dbmeta/meta.go:167-178 | a row whose name matches the only column, ignoring case, records that row's length |
| Lengths.SingleDeclaredLength | dbmeta/meta.go:158-181 | a one-row catalog with type `base(n)`, `base` holding no `(`, for a one-column table whose column belongs to the row records exactly `(lower(name), n)` |
| Sequences.FilterMap | dbmeta/meta.go:191-242 | the kept results are at most as many as the inputs; all of them when none is skipped; none when all are skipped |
| Sequences.FilterMapImage | dbmeta/meta.go:191-242 | the results are the images of the kept inputs in strictly increasing input order, with no kept input missing |
| Fields.MaxRule | dbmeta/meta.go:219 | the length read back out of `max=%d` is the length written in; the rule is non-empty, contains no comma, space or quote, and is not `required` |
| Fields.MaxRules | dbmeta/meta.go:216-222 | every rule is the `max` rule of a fact whose name is exactly the lower-cased key, and every such fact gives its rule; at most one rule per fact; all plain, none `required` |
| Fields.MaxRulesSelectsMatching | dbmeta/meta.go:217-221 | the rules are exactly those of the facts named like the key, kept in fact order with the others dropped |
| Fields.MaxRulesInOrder | dbmeta/meta.go:217-221 | rule `i` is the rule of a matching fact, the facts used are in increasing order, and no matching fact is left without its rule |
| Fields.MaxRulesAppend | dbmeta/meta.go:217-221 | the rules for two runs of length facts are the rules for each, in order |
| Fields.IsRequired | dbmeta/meta.go:211-215 | a column is required when it is NOT NULL and its lower-cased name is neither `created_at` nor `updated_at` |
| Fields.ValidateRules | dbmeta/meta.go:209-222 | `required` is present exactly for required columns, and then it comes first; a non-`varchar` column has only `required`, or nothing; every other rule is the `max` rule of a fact named like the lower-cased key, and for `varchar` every such fact gives its rule; every rule is plain |
| Fields.VarcharRules | dbmeta/meta.go:209-222 | for a `varchar` column the rules are `required` when it applies, then one `max` rule per matching fact in fact order |
| Fields.ClauseRoundTrip | dbmeta/meta.go:204-226 | for a tag without `:`, a `tag:"value"` clause reads back as its tag and value, the reader accepting only a value between double quotes |
| Fields.ClauseValue | dbmeta/meta.go:204-226 | a non-empty value is read only from text of the form `tag:"value"`, so the clause is rebuilt from its tag and value |
| Fields.ValidateClauseRoundTrip | dbmeta/meta.go:223 | the comma-joined validate clause splits back into exactly the rules |
| Fields.GormValue | dbmeta/meta.go:203-207 | the value starts with `column:` and the raw key, and is longer by `;primary_key` exactly when the lower-cased key is listed |
| Fields.GormClause | dbmeta/meta.go:202-208 | the clause is tagged `gorm` and its value reads back as the gorm value |
| Fields.GormValueRoundTrip | dbmeta/meta.go:203-207 | for a key that does not itself end in `;primary_key`, the gorm value reads back as the raw key and a marker that is set exactly when the lower-cased key is listed |
| Fields.GormClauseRoundTrip | dbmeta/meta.go:202-208 | for a key that does not itself end in `;primary_key`, the gorm clause names the raw key and carries `primary_key` exactly when the lower-cased key is in the primary-key list |
| Fields.UpperCasePrimaryKeyNotMarked | dbmeta/meta.go:203 | key `ID` with primary key `ID` gives a clause without `primary_key` |
| Fields.JsonClause | dbmeta/meta.go:226 | the clause is tagged `json` and its value reads back as the raw key |
| Fields.Annotations | dbmeta/meta.go:201-227 | one clause per enabled switch, tagged gorm, validate, json in that order |
| Fields.AnnotationValues | dbmeta/meta.go:201-227 | the gorm clause is the key's gorm clause, the validate clause is the validate clause of the column's rules and reads back as them, and the json clause carries the raw key |
| Fields.FieldLine | dbmeta/meta.go:228-238 | the line starts with the field name, a space and the type; it is exactly that when there are no clauses; otherwise a space and a backtick follow, and the line ends with a backtick |
| Fields.Field | dbmeta/meta.go:191-240 | no field exactly for an unsupported lower-cased type; otherwise the line starts with the field name and the Go type |
| Fields.GenerateFieldsTypes | dbmeta/meta.go:185-244 | at most one field per column; one per column when every type is supported; none when none is |
| Fields.GenerateAppend | dbmeta/meta.go:191-243 | fields for a concatenation of column lists are the concatenation of their fields |
| Fields.FieldsAreOrderedImage | dbmeta/meta.go:191-243 | each field is the line of a distinct emitting column, in column order, and no emitting column is missing |
| Fields.PlainField | dbmeta/meta.go:234-238 | with every annotation switched off the line is exactly the name, a space and the type |
| Fields.FieldLineBody | dbmeta/meta.go:228-233 | the backticks of a tagged line enclose exactly the space-joined clauses |
| Fields.AnnotationsSeparable | dbmeta/meta.go:228-232 | with a space-free key the space-joined clauses split back into the clauses |
| Fields.FieldTagsRecoverable | dbmeta/meta.go:191-240 | for a supported column with tags, whose column name has no space and whose field name has no backtick, splitting the backtick text of its line on spaces recovers exactly its clauses |
| Fields.RequiredVarcharRules | dbmeta/meta.go:209-222 | a required `varchar` column with one length fact `n` has the rules `required`, `max=n` |
| Fields.TimestampsNotRequired | dbmeta/meta.go:211-215 | `created_at` and `updated_at` never carry `required` |
| Fields.LengthFactBecomesMaxRule | dbmeta/meta.go:216-221 | one length fact for a `varchar` column makes its last rule exactly `max=n` |
| Fields.DeclaredLengthBecomesMaxRule | dbmeta/meta.go:158-222 | a `varchar(n)` catalog row becomes the fact `n`, and that becomes exactly the last rule `max=n` |

## Left out

- `GenerateStruct` (lines 94-111) is left out. It only wires the three
  queries into `generateFieldsTypes` and fills in `ModelInfo`.
- `primaryKey` (lines 114-142) is left out. It is a database query; its
  result appears in the model as the `primaryKeys` parameter.
- The database query and `rows.Scan` of `columnLength` (lines 144-164) are
  replaced by the sequence of rows returned. Their `panic` on query errors
  is left out because the database is not modelled.
- `FmtFieldName`, `stringifyFirstChar`, the initialism table and
  `intToWordMap` (lines 28-73) are not part of this model. The field name
  is a function parameter.
- `Contains` is modelled as exact membership in the sequence. Its source
  is not part of this model.
- The `db` and `depth` parameters of `generateFieldsTypes` are not used by
  the loop, so they are left out.
- `Text.ToLower`: folds ASCII letters only, where Go's `strings.ToLower`
  folds every Unicode letter, so column and primary-key names that differ
  only in non-ASCII case match in Go but not in the model. This affects
  the name comparisons of lines 169, 203 and 218, and the lowered name
  stored at line 176. Examples are `Ärger` and `ärger`, and the Kelvin
  sign U+212A and U+0130, which Go lowers to the ASCII `k` and `i` (so a
  type name written `İNT` is an `int` in Go but unsupported here). For
  names that are pure ASCII the two agree.
- Go strings are byte sequences. They are modelled as sequences of
  characters, so `Index` and `LastIndex` positions count characters, not
  bytes.
- `Numbers.ParseInt64`: the `ErrRange` and `ErrSyntax` error values are
  not modelled, because the code discards them. Only the number returned
  is kept.
- `Fields.GenerateFieldsTypes`: its contract states sizes. What each field
  is, and that the fields keep column order, is stated by
  `Fields.FieldsAreOrderedImage` and `Fields.Field`.
- `fmt.Sprintf` is modelled only for the `%s` and `%d` verbs the code
  uses.

=== FILE: fields.dfy ===
/** `generateFieldsTypes`: one Go struct field per column whose type the
    table in `TypeMap` supports, written `name type` or
    ``name type `tags` ``. The field-name normaliser
    (`FmtFieldName(stringifyFirstChar(key))`) is a parameter. */
module Fields {
  import opened Wrappers
  import opened Text
  import opened Numbers
  import opened TypeMap
  import opened Schema
  import opened Sequences
  import opened Lengths

  /** The rule a declared length contributes: `max=N`, which reads back as
      `N` and contains none of the characters that delimit rules. */
  function MaxRule(length: Int64): (r: string)
    ensures MaxRuleLength(r) == length
    ensures PlainRule(r) && r != "required"
  {
    var digits := IntToString(length);
    MaxPrefixed(digits);
    ParseIntToString(length);
    "max=" + digits
  }

  /** `max=` followed by a signed digit string is a plain rule whose text
      after the prefix is the digits. */
  lemma MaxPrefixed(digits: string)
    requires forall i :: 0 <= i < |digits| ==> IsDigit(digits[i]) || (i == 0 && digits[i] == '-')
    ensures var rule := "max=" + digits;
      rule[..4] == "max=" && rule[4..] == digits && PlainRule(rule) && rule != "required"
  {
    var rule := "max=" + digits;
    assert rule[..4] == "max=" && rule[4..] == digits;
    assert forall i :: 0 <= i < |digits| ==> rule[4 + i] == digits[i];
    assert rule[0] == 'm';
  }

  /** Reads the number back out of a `max=N` rule. */
  function MaxRuleLength(rule: string): Int64 {
    if |rule| >= 4 && rule[..4] == "max=" then ParseInt64(rule[4..]) else 0
  }

  /** A rule never contains the characters that delimit rules, clauses or
      tag values. */
  predicate PlainRule(rule: string) {
    |rule| > 0 && ',' !in rule && ' ' !in rule && '"' !in rule
  }

  /** One `max=N` rule per length entry whose name is `keyLower`, in the
      order of the entries: every rule comes from such an entry, and every
      such entry gives its rule. */
  function MaxRules(columnLengths: seq<ColumnLength>, keyLower: string): (r: seq<string>)
    ensures |r| <= |columnLengths|
    ensures forall i :: 0 <= i < |r| ==> PlainRule(r[i]) && r[i] != "required"
    ensures forall rule :: rule in r ==>
      exists e :: e in columnLengths && e.columnName == keyLower && rule == MaxRule(e.length)
    ensures forall e :: e in columnLengths && e.columnName == keyLower ==> MaxRule(e.length) in r
  {
    if |columnLengths| == 0 then []
    else
      var init := columnLengths[..|columnLengths| - 1];
      var e := columnLengths[|columnLengths| - 1];
      assert columnLengths == init + [e];
      MaxRules(init, keyLower) + (if e.columnName == keyLower then [MaxRule(e.length)] else [])
  }

  /** The selection `MaxRules` performs, as a `FilterMap` step. */
  function RuleFor(keyLower: string): ColumnLength -> Option<string> {
    (e: ColumnLength) => if e.columnName == keyLower then Some(MaxRule(e.length)) else None
  }

  /** `MaxRules` keeps, in order, the rule of each entry named `keyLower`
      and drops the others. */
  lemma {:induction false} MaxRulesSelectsMatching(columnLengths: seq<ColumnLength>, keyLower: string)
    ensures MaxRules(columnLengths, keyLower) == FilterMap(columnLengths, RuleFor(keyLower))
  {
    if |columnLengths| > 0 {
      var init := columnLengths[..|columnLengths| - 1];
      var e := columnLengths[|columnLengths| - 1];
      var f := RuleFor(keyLower);
      assert columnLengths == init + [e];
      MaxRulesSelectsMatching(init, keyLower);
      FilterMapAppend(init, [e], f);
      FilterMapSingle(e, f);
      assert f(e) == if e.columnName == keyLower then Some(MaxRule(e.length)) else None;
    }
  }

  /** Rule `i` is the rule of entry `idx[i]`, the indices increase, and no
      entry named `keyLower` is left without its rule. */
  lemma MaxRulesInOrder(columnLengths: seq<ColumnLength>, keyLower: string) returns (idx: seq<nat>)
    ensures |idx| == |MaxRules(columnLengths, keyLower)|
    ensures forall i :: 0 <= i < |idx| ==> (idx[i] < |columnLengths|
      && columnLengths[idx[i]].columnName == keyLower
      && MaxRules(columnLengths, keyLower)[i] == MaxRule(columnLengths[idx[i]].length))
    ensures forall i, j :: 0 <= i < j < |idx| ==> idx[i] < idx[j]
    ensures forall k :: 0 <= k < |columnLengths| && columnLengths[k].columnName == keyLower ==> k in idx
  {
    var f := RuleFor(keyLower);
    MaxRulesSelectsMatching(columnLengths, keyLower);
    idx := FilterMapImage(columnLengths, f);
    forall i | 0 <= i < |idx|
      ensures columnLengths[idx[i]].columnName == keyLower
      ensures MaxRules(columnLengths, keyLower)[i] == MaxRule(columnLengths[idx[i]].length)
    {
      assert f(columnLengths[idx[i]]) == Some(FilterMap(columnLengths, f)[i]);
    }
    forall k | 0 <= k < |columnLengths| && columnLengths[k].columnName == keyLower
      ensures k in idx
    {
      assert f(columnLengths[k]).Some?;
    }
  }

  /** The rules of two runs of entries are the rules of each, in order. */
  lemma {:induction false} MaxRulesAppend(a: seq<ColumnLength>, b: seq<ColumnLength>, keyLower: string)
    ensures MaxRules(a + b, keyLower) == MaxRules(a, keyLower) + MaxRules(b, keyLower)
  {
    if |b| > 0 {
      assert (a + b)[..|a + b| - 1] == a + b[..|b| - 1];
      MaxRulesAppend(a, b[..|b| - 1], keyLower);
    } else {
      assert a + b == a;
    }
  }

  /** A NOT NULL column is `required` unless it is one of the two timestamp
      columns the database fills in. */
  predicate IsRequired(col: Column) {
    !col.nullable && ToLower(col.name) != "created_at" && ToLower(col.name) != "updated_at"
  }

  /** The validation rules of a column: `required`, then a `max=N` per
      declared length of a `varchar` column. */
  function ValidateRules(col: Column, columnLengths: seq<ColumnLength>): (r: seq<string>)
    ensures "required" in r <==> IsRequired(col)
    ensures IsRequired(col) ==> r[0] == "required"
    ensures ToLower(col.dbTypeName) != "varchar" ==> r == (if IsRequired(col) then ["required"] else [])
    ensures forall rule :: rule in r && rule != "required" ==>
      exists e :: e in columnLengths && e.columnName == ToLower(col.name) && rule == MaxRule(e.length)
    ensures ToLower(col.dbTypeName) == "varchar" ==>
      forall e :: e in columnLengths && e.columnName == ToLower(col.name) ==> MaxRule(e.length) in r
    ensures |r| <= 1 + |columnLengths|
    ensures forall i :: 0 <= i < |r| ==> PlainRule(r[i])
  {
    var required := if IsRequired(col) then ["required"] else [];
    var maxima := if ToLower(col.dbTypeName) == "varchar" then MaxRules(columnLengths, ToLower(col.name)) else [];
    assert "required" !in maxima;
    required + maxima
  }

  /** For a `varchar` column the rules are `required` when it applies,
      then the rule of each length entry named like the lower-cased key,
      in entry order. */
  lemma VarcharRules(col: Column, columnLengths: seq<ColumnLength>)
    requires ToLower(col.dbTypeName) == "varchar"
    ensures ValidateRules(col, columnLengths)
         == (if IsRequired(col) then ["required"] else []) + FilterMap(columnLengths, RuleFor(ToLower(col.name)))
  {
    MaxRulesSelectsMatching(columnLengths, ToLower(col.name));
  }

  /** A struct-tag clause `tag:"value"`. */
  function Clause(tag: string, value: string): string {
    tag + ":\"" + value + "\""
  }

  /** The tag a clause belongs to: the text before its first `:`. */
  function ClauseTag(clause: string): string {
    var k := IndexOf(clause, ':');
    if k == -1 then clause else clause[..k]
  }

  /** The text between the double quotes that follow the first `:`, as
      `reflect.StructTag.Get` reads it; empty when the value is not quoted. */
  function ClauseValue(clause: string): (r: string)
    ensures r != "" ==> clause == Clause(ClauseTag(clause), r)
  {
    var k := IndexOf(clause, ':');
    if k == -1 || |clause| < k + 3 || clause[k + 1] != '"' || clause[|clause| - 1] != '"' then ""
    else
      var r := clause[k + 2..|clause| - 1];
      assert clause == clause[..k] + ":\"" + r + "\"";
      r
  }

  /** A clause can be taken apart into its tag and its value again. */
  lemma ClauseRoundTrip(tag: string, value: string)
    requires ':' !in tag
    ensures ClauseTag(Clause(tag, value)) == tag
    ensures ClauseValue(Clause(tag, value)) == value
  {
    var rest := "\"" + value + "\"";
    var clause := tag + ":" + rest;
    assert Clause(tag, value) == clause;
    IndexOfAfterPrefix(tag, ':', rest);
    assert clause[..|tag|] == tag;
    assert clause[|tag| + 1] == '"' && clause[|clause| - 1] == '"';
    assert clause[|tag| + 2..|clause| - 1] == value;
  }

  /** `validate:"r1,r2,…"`, possibly with nothing between the quotes. */
  function ValidateClause(rules: seq<string>): string {
    Clause("validate", Join(rules, ","))
  }

  /** Reads the rule list back out of a validate clause. */
  function ValidateClauseRules(clause: string): seq<string> {
    var body := ClauseValue(clause);
    if body == "" then [] else Split(body, ',')
  }

  /** The validate clause loses nothing: its rules can be read back. */
  lemma ValidateClauseRoundTrip(col: Column, columnLengths: seq<ColumnLength>)
    ensures ValidateClauseRules(ValidateClause(ValidateRules(col, columnLengths))) == ValidateRules(col, columnLengths)
  {
    var rules := ValidateRules(col, columnLengths);
    ClauseRoundTrip("validate", Join(rules, ","));
    if |rules| > 0 {
      SplitJoin(rules, ',');
      if |rules| == 1 {
        assert Join(rules, ",") == rules[0];
      } else {
        assert Join(rules, ",") == rules[0] + "," + Join(rules[1..], ",");
      }
    }
  }

  /** The value of the gorm clause: `column:<key>`, followed by
      `;primary_key` when the lower-cased key is one of the primary keys as
      given. */
  function GormValue(key: string, primaryKeys: seq<string>): (r: string)
    ensures "column:" + key <= r
    ensures |r| == |"column:" + key| + (if ToLower(key) in primaryKeys then |PrimaryKeySuffix| else 0)
  {
    if ToLower(key) in primaryKeys then "column:" + key + ";primary_key"
    else "column:" + key
  }

  function GormClause(key: string, primaryKeys: seq<string>): (r: string)
    ensures ClauseTag(r) == "gorm" && ClauseValue(r) == GormValue(key, primaryKeys)
  {
    ClauseRoundTrip("gorm", GormValue(key, primaryKeys));
    Clause("gorm", GormValue(key, primaryKeys))
  }

  const PrimaryKeySuffix: string := ";primary_key"

  predicate EndsWithPrimaryKey(s: string) {
    |s| >= |PrimaryKeySuffix| && s[|s| - |PrimaryKeySuffix|..] == PrimaryKeySuffix
  }

  /** Reads the column name and the primary-key marker back out of a gorm
      value. */
  function GormValueColumn(body: string): (string, bool) {
    var name := if |body| >= 7 then body[7..] else "";
    if EndsWithPrimaryKey(name) then (name[..|name| - |PrimaryKeySuffix|], true) else (name, false)
  }

  /** Reads the column name and the primary-key marker back out of a gorm
      clause. */
  function GormClauseColumn(clause: string): (string, bool) {
    GormValueColumn(ClauseValue(clause))
  }

  /** The gorm value reads back as the raw key and the primary-key marker. */
  lemma GormValueRoundTrip(key: string, primaryKeys: seq<string>)
    requires !EndsWithPrimaryKey(key)
    ensures GormValueColumn(GormValue(key, primaryKeys)) == (key, ToLower(key) in primaryKeys)
  {
    var value := GormValue(key, primaryKeys);
    if ToLower(key) in primaryKeys {
      var name := key + PrimaryKeySuffix;
      assert value == "column:" + name;
      assert value[7..] == name;
      assert name[|name| - |PrimaryKeySuffix|..] == PrimaryKeySuffix;
      assert name[..|name| - |PrimaryKeySuffix|] == key;
    } else {
      assert value == "column:" + key;
      assert value[7..] == key;
    }
  }

  /** The gorm clause names the raw key and carries the primary-key marker
      exactly when the lower-cased key is listed in `primaryKeys`. */
  lemma GormClauseRoundTrip(key: string, primaryKeys: seq<string>)
    requires !EndsWithPrimaryKey(key)
    ensures GormClauseColumn(GormClause(key, primaryKeys)) == (key, ToLower(key) in primaryKeys)
  {
    GormValueRoundTrip(key, primaryKeys);
  }

  /** The primary keys are compared with the lower-cased key as they are,
      so a key that is stored in upper case is not marked. */
  lemma UpperCasePrimaryKeyNotMarked()
    ensures GormClause("ID", ["ID"]) == "gorm:\"column:ID\""
  {
    var lowered := ToLower("ID");
    assert lowered == "id" by {
      assert lowered[0] == LowerChar('I') && lowered[1] == LowerChar('D');
    }
    assert lowered !in ["ID"];
    var value := GormValue("ID", ["ID"]);
    assert value == "column:ID";
    assert Clause("gorm", value) == "gorm:\"column:ID\"";
  }

  /** `json:"<key>"` with the raw column name. */
  function JsonClause(key: string): (r: string)
    ensures ClauseTag(r) == "json" && ClauseValue(r) == key
  {
    ClauseRoundTrip("json", key);
    Clause("json", key)
  }

  /** The tags of the enabled clauses, in the fixed order gorm, validate,
      json. */
  function EnabledTags(opts: Options): seq<string> {
    (if opts.gormAnnotation then ["gorm"] else [])
    + (if opts.validateAnnotation then ["validate"] else [])
    + (if opts.jsonAnnotation then ["json"] else [])
  }

  /** `ClauseRoundTrip` for every tag and value at once. */
  lemma AllClausesRoundTrip()
    ensures forall tag, value :: ':' !in tag ==>
      ClauseTag(Clause(tag, value)) == tag && ClauseValue(Clause(tag, value)) == value
  {
    forall tag, value | ':' !in tag
      ensures ClauseTag(Clause(tag, value)) == tag && ClauseValue(Clause(tag, value)) == value
    {
      ClauseRoundTrip(tag, value);
    }
  }

  /** The value written under each tag. */
  function TagValue(tag: string, col: Column, primaryKeys: seq<string>, columnLengths: seq<ColumnLength>): string {
    if tag == "gorm" then GormValue(col.name, primaryKeys)
    else if tag == "validate" then Join(ValidateRules(col, columnLengths), ",")
    else col.name
  }

  /** The clauses of one field: one per enabled tag, in the order gorm,
      validate, json. */
  function Annotations(col: Column, opts: Options, primaryKeys: seq<string>, columnLengths: seq<ColumnLength>): (r: seq<string>)
    ensures |r| == |EnabledTags(opts)|
    ensures forall i :: 0 <= i < |r| ==> ClauseTag(r[i]) == EnabledTags(opts)[i]
  {
    var tags := EnabledTags(opts);
    assert forall i :: 0 <= i < |tags| ==> tags[i] in {"gorm", "validate", "json"};
    AllClausesRoundTrip();
    seq(|tags|, i requires 0 <= i < |tags| => Clause(tags[i], TagValue(tags[i], col, primaryKeys, columnLengths)))
  }

  /** What each enabled clause says: the gorm clause names the raw key and
      marks primary keys, the validate clause carries the rules, the json
      clause carries the raw key. */
  lemma AnnotationValues(col: Column, opts: Options, primaryKeys: seq<string>, columnLengths: seq<ColumnLength>)
    ensures var r := Annotations(col, opts, primaryKeys, columnLengths);
      && (opts.gormAnnotation ==> r[0] == GormClause(col.name, primaryKeys))
      && (opts.validateAnnotation ==>
            r[if opts.gormAnnotation then 1 else 0] == ValidateClause(ValidateRules(col, columnLengths))
            && ValidateClauseRules(r[if opts.gormAnnotation then 1 else 0]) == ValidateRules(col, columnLengths))
      && (opts.jsonAnnotation ==> r[|r| - 1] == JsonClause(col.name))
  {
    var tags := EnabledTags(opts);
    if opts.validateAnnotation {
      assert tags[if opts.gormAnnotation then 1 else 0] == "validate";
      ValidateClauseRoundTrip(col, columnLengths);
    }
    if opts.jsonAnnotation {
      assert tags[|tags| - 1] == "json";
    }
  }

  /** The two `fmt.Sprintf` calls of lines 229-237: the name, a space and
      the type, followed, when there are clauses, by a space and the
      space-joined clauses between backticks. */
  function FieldLine(fieldName: string, valueType: string, annotations: seq<string>): (r: string)
    ensures fieldName + " " + valueType <= r
    ensures |annotations| == 0 <==> |r| == |fieldName| + 1 + |valueType|
    ensures |annotations| > 0 ==> |r| >= |fieldName| + |valueType| + 4
    ensures |annotations| > 0 ==> r[|r| - 1] == '`' && r[|fieldName| + 1 + |valueType|..|fieldName| + |valueType| + 3] == " `"
  {
    if |annotations| > 0 then fieldName + " " + valueType + " " + "`" + Join(annotations, " ") + "`"
    else fieldName + " " + valueType
  }

  /** One loop iteration of `generateFieldsTypes`: `None` when the column's
      type is unsupported and the column is skipped. */
  function Field(col: Column, opts: Options, primaryKeys: seq<string>, columnLengths: seq<ColumnLength>,
                 fieldName: string -> string): (r: Option<string>)
    ensures r.None? <==> ToLower(col.dbTypeName) !in Supported
    ensures r.Some? ==>
      fieldName(col.name) + " " + SqlTypeToGoType(ToLower(col.dbTypeName), col.nullable, opts.gureguTypes) <= r.value
  {
    var valueType := SqlTypeToGoType(ToLower(col.dbTypeName), col.nullable, opts.gureguTypes);
    if valueType == "" then None
    else Some(FieldLine(fieldName(col.name), valueType, Annotations(col, opts, primaryKeys, columnLengths)))
  }

  /** Whether a column produces a field. */
  predicate Emits(col: Column) {
    ToLower(col.dbTypeName) in Supported
  }

  /** `generateFieldsTypes`. */
  function GenerateFieldsTypes(columns: seq<Column>, primaryKeys: seq<string>, columnLengths: seq<ColumnLength>,
                               opts: Options, fieldName: string -> string): (r: seq<string>)
    ensures |r| <= |columns|
    ensures (forall i :: 0 <= i < |columns| ==> Emits(columns[i])) ==> |r| == |columns|
    ensures (forall i :: 0 <= i < |columns| ==> !Emits(columns[i])) ==> r == []
  {
    FilterMap(columns, col => Field(col, opts, primaryKeys, columnLengths, fieldName))
  }

  /** Generating for two runs of columns is generating for each, in order. */
  lemma GenerateAppend(a: seq<Column>, b: seq<Column>, primaryKeys: seq<string>,
                       columnLengths: seq<ColumnLength>, opts: Options, fieldName: string -> string)
    ensures GenerateFieldsTypes(a + b, primaryKeys, columnLengths, opts, fieldName)
         == GenerateFieldsTypes(a, primaryKeys, columnLengths, opts, fieldName)
          + GenerateFieldsTypes(b, primaryKeys, columnLengths, opts, fieldName)
  {
    FilterMapAppend(a, b, col => Field(col, opts, primaryKeys, columnLengths, fieldName));
  }

  /** The fields are the images of the emitting columns, in column order,
      with none left out: `idx` gives the column each field comes from. */
  lemma FieldsAreOrderedImage(columns: seq<Column>, primaryKeys: seq<string>,
                              columnLengths: seq<ColumnLength>, opts: Options,
                              fieldName: string -> string) returns (idx: seq<nat>)
    ensures |idx| == |GenerateFieldsTypes(columns, primaryKeys, columnLengths, opts, fieldName)|
    ensures forall i :: 0 <= i < |idx| ==> (idx[i] < |columns|
      && Field(columns[idx[i]], opts, primaryKeys, columnLengths, fieldName)
         == Some(GenerateFieldsTypes(columns, primaryKeys, columnLengths, opts, fieldName)[i]))
    ensures forall i, j :: 0 <= i < j < |idx| ==> idx[i] < idx[j]
    ensures forall k :: 0 <= k < |columns| && Emits(columns[k]) ==> k in idx
  {
    idx := FilterMapImage(columns, col => Field(col, opts, primaryKeys, columnLengths, fieldName));
  }

  /** With no annotation switched on a field is just `name type`. */
  lemma PlainField(col: Column, opts: Options, primaryKeys: seq<string>, columnLengths: seq<ColumnLength>,
                   fieldName: string -> string)
    requires !opts.gormAnnotation && !opts.validateAnnotation && !opts.jsonAnnotation
    requires Emits(col)
    ensures Field(col, opts, primaryKeys, columnLengths, fieldName)
         == Some(fieldName(col.name) + " " + SqlTypeToGoType(ToLower(col.dbTypeName), col.nullable, opts.gureguTypes))
  {
  }

  /** A clause avoids a character that is not `:` or `"` and occurs in
      neither its tag nor its value. */
  lemma ClauseAvoids(tag: string, value: string, c: char)
    requires c != ':' && c != '"' && c !in tag && c !in value
    ensures c !in Clause(tag, value)
  {
  }

  lemma TagValueHasNoSpace(tag: string, col: Column, primaryKeys: seq<string>, columnLengths: seq<ColumnLength>)
    requires ' ' !in col.name
    ensures ' ' !in TagValue(tag, col, primaryKeys, columnLengths)
  {
    if tag == "validate" {
      JoinAvoids(ValidateRules(col, columnLengths), ",", ' ');
    }
  }

  /** With a space-free key no clause contains a space. */
  lemma ClausesHaveNoSpace(col: Column, opts: Options, primaryKeys: seq<string>, columnLengths: seq<ColumnLength>)
    requires ' ' !in col.name
    ensures forall i :: 0 <= i < |Annotations(col, opts, primaryKeys, columnLengths)| ==>
      ' ' !in Annotations(col, opts, primaryKeys, columnLengths)[i]
  {
    var r := Annotations(col, opts, primaryKeys, columnLengths);
    var tags := EnabledTags(opts);
    forall i | 0 <= i < |r|
      ensures ' ' !in r[i]
    {
      var tag := tags[i];
      assert r[i] == Clause(tag, TagValue(tag, col, primaryKeys, columnLengths));
      assert tag == "gorm" || tag == "validate" || tag == "json";
      TagValueHasNoSpace(tag, col, primaryKeys, columnLengths);
      ClauseAvoids(tag, TagValue(tag, col, primaryKeys, columnLengths), ' ');
    }
  }

  /** The text between the first backtick of a field line and its last
      character. */
  function BacktickBody(line: string): string {
    var k := IndexOf(line, '`');
    if k == -1 || |line| < k + 2 then "" else line[k + 1..|line| - 1]
  }

  /** The backticks of a field line enclose exactly the joined clauses. */
  lemma FieldLineBody(fieldName: string, valueType: string, annotations: seq<string>)
    requires '`' !in fieldName && '`' !in valueType && |annotations| > 0
    ensures BacktickBody(FieldLine(fieldName, valueType, annotations)) == Join(annotations, " ")
  {
    var head := fieldName + " " + valueType + " ";
    assert '`' !in head;
    TaggedLineShape(fieldName, valueType, annotations);
    BacktickBodyAfterHead(head, Join(annotations, " "));
  }

  /** A tagged field line is its head, a backtick, the joined clauses and a
      closing backtick. */
  lemma TaggedLineShape(fieldName: string, valueType: string, annotations: seq<string>)
    requires |annotations| > 0
    ensures FieldLine(fieldName, valueType, annotations)
         == (fieldName + " " + valueType + " ") + ['`'] + (Join(annotations, " ") + "`")
  {
  }

  /** The backtick body of `head`, a backtick, `body` and a backtick is
      `body` when `head` has no backtick. */
  lemma BacktickBodyAfterHead(head: string, body: string)
    requires '`' !in head
    ensures BacktickBody(head + ['`'] + (body + "`")) == body
  {
    var line := head + ['`'] + (body + "`");
    IndexOfAfterPrefix(head, '`', body + "`");
    assert line[|head| + 1..|line| - 1] == body;
  }

  /** When a field carries tags, the clauses can be recovered from its line:
      the text between the backticks splits on spaces into exactly the
      enabled clauses, provided the names contain no space or backtick. */
  lemma FieldTagsRecoverable(col: Column, opts: Options, primaryKeys: seq<string>, columnLengths: seq<ColumnLength>,
                             fieldName: string -> string)
    requires Emits(col) && |EnabledTags(opts)| > 0
    requires ' ' !in col.name && '`' !in fieldName(col.name)
    ensures Field(col, opts, primaryKeys, columnLengths, fieldName).Some?
    ensures Split(BacktickBody(Field(col, opts, primaryKeys, columnLengths, fieldName).value), ' ')
         == Annotations(col, opts, primaryKeys, columnLengths)
  {
    var valueType := SqlTypeToGoType(ToLower(col.dbTypeName), col.nullable, opts.gureguTypes);
    var annotations := Annotations(col, opts, primaryKeys, columnLengths);
    FieldLineBody(fieldName(col.name), valueType, annotations);
    AnnotationsSeparable(col, opts, primaryKeys, columnLengths);
  }

  /** When the column name has no space, the space-joined clauses between
      the backticks can be split apart again. */
  lemma AnnotationsSeparable(col: Column, opts: Options, primaryKeys: seq<string>, columnLengths: seq<ColumnLength>)
    requires ' ' !in col.name
    requires |Annotations(col, opts, primaryKeys, columnLengths)| > 0
    ensures var r := Annotations(col, opts, primaryKeys, columnLengths);
      Split(Join(r, " "), ' ') == r
  {
    ClausesHaveNoSpace(col, opts, primaryKeys, columnLengths);
    SplitJoin(Annotations(col, opts, primaryKeys, columnLengths), ' ');
  }

  /** A required `varchar` column with one length fact has the rules
      `required` and `max=N`, in that order; for the NOT NULL
      `varchar(255)` column `email` they are `required,max=255`. */
  lemma RequiredVarcharRules(col: Column, n: Int64)
    requires IsRequired(col) && ToLower(col.dbTypeName) == "varchar"
    ensures ValidateRules(col, [ColumnLength(ToLower(col.name), n)]) == ["required", MaxRule(n)]
  {
    var e := ColumnLength(ToLower(col.name), n);
    assert MaxRules([e], ToLower(col.name)) == MaxRules([], ToLower(col.name)) + [MaxRule(n)];
  }

  /** `created_at` and `updated_at` are never `required`, whatever their
      nullability. */
  lemma TimestampsNotRequired(col: Column, columnLengths: seq<ColumnLength>)
    requires ToLower(col.name) == "created_at" || ToLower(col.name) == "updated_at"
    ensures "required" !in ValidateRules(col, columnLengths)
  {
  }

  /** One length fact for a `varchar` column makes its last validation
      rule `max=n`. */
  lemma LengthFactBecomesMaxRule(col: Column, n: Int64)
    requires ToLower(col.dbTypeName) == "varchar"
    ensures var rules := ValidateRules(col, [ColumnLength(ToLower(col.name), n)]);
      |rules| > 0 && rules[|rules| - 1] == MaxRule(n)
  {
    var e := ColumnLength(ToLower(col.name), n);
    assert MaxRules([e], ToLower(col.name)) == MaxRules([], ToLower(col.name)) + [MaxRule(n)];
  }

  /** From catalog to tag: a `varchar` column whose catalog type is
      `varchar(n)` gets exactly one length fact, and its last validation
      rule is `max=n`. */
  lemma DeclaredLengthBecomesMaxRule(col: Column, n: Int64)
    requires ToLower(col.dbTypeName) == "varchar"
    ensures ColumnLengths([CatalogRow(col.name, "varchar(" + IntToString(n) + ")")], [col])
         == Ok([ColumnLength(ToLower(col.name), n)])
    ensures var rules := ValidateRules(col, [ColumnLength(ToLower(col.name), n)]);
      |rules| > 0 && rules[|rules| - 1] == MaxRule(n)
  {
    assert "varchar" + "(" == "varchar(";
    SingleDeclaredLength(col, "varchar", n);
    LengthFactBecomesMaxRule(col, n);
  }
}

=== FILE: lengths.dfy ===
/** The declared-length facts of `columnLength`: for every catalog row
    `(column_name, column_type)` whose name matches a column of the table,
    the number between the first `(` and the last `)` of the type. The
    catalog query itself is replaced by the sequence of rows it returns. */
module Lengths {
  import opened Wrappers
  import opened Text
  import opened Numbers
  import opened Schema

  /** What the slicing code does with one matching row. */
  datatype LengthScan = NoLength | Recorded(entry: ColumnLength) | SlicePanic

  /** Every `)` of `t` comes before every `(`, and both occur: then the
      slice `t[Index("(")+1 : LastIndex(")")]` has its bounds reversed. */
  predicate BoundsReversed(t: string) {
    '(' in t && ')' in t &&
    forall i, j :: 0 <= i < |t| && 0 <= j < |t| && t[i] == '(' && t[j] == ')' ==> j < i
  }

  /** The text the code hands to `ParseInt`: from just after the first `(`
      (or from the start when there is none) up to the last `)`. */
  function LengthText(columnType: string): (r: string)
    requires ')' in columnType && !BoundsReversed(columnType)
    ensures |r| < |columnType|
    ensures '(' !in columnType ==> r + [')'] <= columnType && ')' !in columnType[|r| + 1..]
  {
    var start := IndexOf(columnType, '(') + 1;
    var last := LastIndexOf(columnType, ')');
    assert start <= last;
    assert forall k :: last < k < |columnType| ==> columnType[last + 1..][k - last - 1] == columnType[k];
    columnType[start..last]
  }

  /** Lines 170-177 for one matching row. The `startIndex < 0` test can
      never fire because one has been added to `Index`; a missing `)` ends
      the row; reversed bounds make the slice panic; a parse error is
      dropped and leaves 0. */
  function ExtractLength(columnName: string, columnType: string): (r: LengthScan)
    ensures r.NoLength? <==> ')' !in columnType
    ensures r.SlicePanic? <==> BoundsReversed(columnType)
    ensures r.Recorded? ==> r.entry.columnName == ToLower(columnName)
    ensures r.Recorded? ==> r.entry.length == ParseInt64(LengthText(columnType))
  {
    var start := IndexOf(columnType, '(') + 1;
    var last := LastIndexOf(columnType, ')');
    if start < 0 || last < 0 then NoLength
    else if start > last then
      assert BoundsReversed(columnType) by {
        forall i, j | 0 <= i < |columnType| && 0 <= j < |columnType| && columnType[i] == '(' && columnType[j] == ')'
          ensures j < i
        {
          assert start - 1 <= i && j <= last;
        }
      }
      SlicePanic
    else
      assert !BoundsReversed(columnType) by {
        if '(' in columnType {
          assert columnType[start - 1] == '(' && columnType[last] == ')' && start - 1 < last;
        }
      }
      Recorded(ColumnLength(ToLower(columnName), ParseInt64(LengthText(columnType))))
  }

  /** A type written `base(text)suffix`, where `base` has no `(` and
      `suffix` has no `)`, records `ParseInt(text)`; `text` itself may hold
      parentheses, as in `enum('a(b')`. */
  lemma ExtractParenthesized(columnName: string, base: string, text: string, suffix: string)
    requires '(' !in base && ')' !in suffix
    ensures ExtractLength(columnName, base + "(" + text + ")" + suffix)
         == Recorded(ColumnLength(ToLower(columnName), ParseInt64(text)))
  {
    var t := base + "(" + text + ")" + suffix;
    assert t[|base|] == '(';
    assert forall k :: 0 <= k < |base| ==> t[k] == base[k];
    assert IndexOf(t, '(') == |base|;
    var last := |base| + 1 + |text|;
    assert t[last] == ')';
    assert forall k :: last < k < |t| ==> t[k] == suffix[k - last - 1];
    assert LastIndexOf(t, ')') == last;
    assert t[|base| + 1..last] == text;
  }

  /** A type written `base(n)suffix` (as in `varchar(255)` or
      `int(10) unsigned`) records `n`. */
  lemma ExtractDeclaredLength(columnName: string, base: string, n: Int64, suffix: string)
    requires '(' !in base && ')' !in suffix
    ensures ExtractLength(columnName, base + "(" + IntToString(n) + ")" + suffix)
         == Recorded(ColumnLength(ToLower(columnName), n))
  {
    ExtractParenthesized(columnName, base, IntToString(n), suffix);
    ParseIntToString(n);
  }

  /** Without a `(` the code parses everything before the last `)`. */
  lemma ExtractWithoutOpenParen(columnName: string, prefix: string, suffix: string)
    requires '(' !in prefix && ')' !in suffix && '(' !in suffix
    ensures ExtractLength(columnName, prefix + ")" + suffix)
         == Recorded(ColumnLength(ToLower(columnName), ParseInt64(prefix)))
  {
    var t := prefix + ")" + suffix;
    assert '(' !in t;
    assert t[|prefix|] == ')';
    assert forall k :: |prefix| < k < |t| ==> t[k] == suffix[k - |prefix| - 1];
    assert LastIndexOf(t, ')') == |prefix|;
    assert t[0..|prefix|] == prefix;
  }

  /** A parenthesized text that is not a number, such as the `10,2` of
      `decimal(10,2)`, is recorded as length 0 rather than skipped. */
  lemma MalformedLengthIsZero(columnName: string, base: string, text: string, suffix: string)
    requires '(' !in base && ')' !in suffix
    requires |text| <= 19 && !WellFormedDecimal(text)
    ensures ExtractLength(columnName, base + "(" + text + ")" + suffix)
         == Recorded(ColumnLength(ToLower(columnName), 0))
  {
    ExtractParenthesized(columnName, base, text, suffix);
    ShortMalformedIsZero(text);
  }

  /** A parenthesized text whose leading digits overflow is recorded with
      the clamped bound of its sign, whatever follows the digits. */
  lemma OverflowingLengthIsClamped(columnName: string, base: string, digits: string, junk: string, suffix: string)
    requires '(' !in base && ')' !in suffix
    requires AllDigits(digits) && Fold(digits, 0) > MaxUint64
    ensures ExtractLength(columnName, base + "(" + (digits + junk) + ")" + suffix)
         == Recorded(ColumnLength(ToLower(columnName), MaxInt64))
    ensures ExtractLength(columnName, base + "(" + ("-" + digits + junk) + ")" + suffix)
         == Recorded(ColumnLength(ToLower(columnName), MinInt64))
  {
    OverflowingPrefixClamps(digits, junk);
    ExtractParenthesized(columnName, base, digits + junk, suffix);
    ExtractParenthesized(columnName, base, "-" + digits + junk, suffix);
  }

  /** Line 169: a column belongs to a catalog row when their names agree
      once lower-cased. */
  predicate Matches(col: Column, rowName: string) {
    ToLower(col.name) == ToLower(rowName)
  }

  /** How many of the table's columns belong to a catalog row. */
  function MatchCount(cols: seq<Column>, rowName: string): (r: nat)
    ensures r <= |cols|
    ensures r == 0 <==> forall c :: c in cols ==> !Matches(c, rowName)
  {
    if |cols| == 0 then 0
    else
      assert forall c :: c in cols ==> c == cols[0] || c in cols[1..];
      (if Matches(cols[0], rowName) then 1 else 0) + MatchCount(cols[1..], rowName)
  }

  /** A row makes the slice panic: some column belongs to it and its type
      has its bounds reversed. */
  predicate RowPanics(row: CatalogRow, cols: seq<Column>) {
    BoundsReversed(row.columnType) && MatchCount(cols, row.columnName) > 0
  }

  /** The inner loop over the table's columns for one catalog row: each
      column that belongs to the row records the row's length, and a row
      without `)` stops the loop at its first such column. */
  function RowLengths(row: CatalogRow, cols: seq<Column>): (r: Outcome<seq<ColumnLength>>)
    ensures r.Panic? <==> RowPanics(row, cols)
    ensures ')' !in row.columnType || MatchCount(cols, row.columnName) == 0 ==> r == Ok([])
    ensures r.Ok? ==> |r.value| <= |cols|
    ensures r.Ok? ==> forall k :: 0 <= k < |r.value| ==> ExtractLength(row.columnName, row.columnType) == Recorded(r.value[k])
    ensures ExtractLength(row.columnName, row.columnType).Recorded? ==> r.Ok? && |r.value| == MatchCount(cols, row.columnName)
  {
    if |cols| == 0 then Ok([])
    else if !Matches(cols[0], row.columnName) then RowLengths(row, cols[1..])
    else
      var scan := ExtractLength(row.columnName, row.columnType);
      if scan.NoLength? then Ok([])
      else if scan.SlicePanic? then Panic("slice bounds out of range")
      else
        var rest := RowLengths(row, cols[1..]);
        if rest.Panic? then rest else Ok([scan.entry] + rest.value)
  }

  /** `columnLength` over the rows its query returned, in row order; it
      panics exactly when some row does. */
  function ColumnLengths(rows: seq<CatalogRow>, cols: seq<Column>): (r: Outcome<seq<ColumnLength>>)
    ensures r.Panic? <==> exists i :: 0 <= i < |rows| && RowPanics(rows[i], cols)
  {
    if |rows| == 0 then Ok([])
    else
      assert forall i :: 0 <= i < |rows| - 1 ==> rows[1..][i] == rows[i + 1];
      var first := RowLengths(rows[0], cols);
      if first.Panic? then first
      else
        var rest := ColumnLengths(rows[1..], cols);
        if rest.Panic? then rest
        else
          assert forall i :: 0 <= i < |rows| ==> i == 0 || rows[i] == rows[1..][i - 1];
          Ok(first.value + rest.value)
  }

  /** The number of entries a row contributes: one per column that belongs
      to it, when its type records a length. */
  function RecordedCount(row: CatalogRow, cols: seq<Column>): nat {
    if ExtractLength(row.columnName, row.columnType).Recorded? then MatchCount(cols, row.columnName) else 0
  }

  function TotalRecorded(rows: seq<CatalogRow>, cols: seq<Column>): nat {
    if |rows| == 0 then 0 else RecordedCount(rows[0], cols) + TotalRecorded(rows[1..], cols)
  }

  /** Exactly one entry is recorded per (row, column) pair that belong
      together, for rows whose type records a length. */
  lemma {:induction false} LengthEntriesCount(rows: seq<CatalogRow>, cols: seq<Column>)
    requires ColumnLengths(rows, cols).Ok?
    ensures |ColumnLengths(rows, cols).value| == TotalRecorded(rows, cols)
  {
    if |rows| > 0 {
      LengthEntriesCount(rows[1..], cols);
      var row := rows[0];
      var scan := ExtractLength(row.columnName, row.columnType);
      assert scan.SlicePanic? ==> MatchCount(cols, row.columnName) == 0;
      assert |RowLengths(row, cols).value| == RecordedCount(row, cols);
    }
  }

  /** Every row whose type records a length and to which some column
      belongs has its entry among the results. */
  lemma {:induction false} LengthEntriesComplete(rows: seq<CatalogRow>, cols: seq<Column>, i: nat)
    requires ColumnLengths(rows, cols).Ok?
    requires i < |rows| && MatchCount(cols, rows[i].columnName) > 0
    requires ExtractLength(rows[i].columnName, rows[i].columnType).Recorded?
    ensures ExtractLength(rows[i].columnName, rows[i].columnType).entry in ColumnLengths(rows, cols).value
  {
    var first := RowLengths(rows[0], cols).value;
    var rest := ColumnLengths(rows[1..], cols).value;
    assert ColumnLengths(rows, cols).value == first + rest;
    if i == 0 {
      assert first[0] == ExtractLength(rows[0].columnName, rows[0].columnType).entry;
    } else {
      assert rows[1..][i - 1] == rows[i];
      LengthEntriesComplete(rows[1..], cols, i - 1);
    }
  }

  /** Every recorded entry is the length recorded for some catalog row, so
      that row has a `)` in its type and the entry carries its lower-cased
      name. */
  lemma {:induction false} LengthEntriesComeFromRows(rows: seq<CatalogRow>, cols: seq<Column>)
    requires ColumnLengths(rows, cols).Ok?
    ensures forall e :: e in ColumnLengths(rows, cols).value ==>
      exists row :: row in rows && ExtractLength(row.columnName, row.columnType) == Recorded(e)
  {
    if |rows| > 0 {
      var first := RowLengths(rows[0], cols).value;
      var rest := ColumnLengths(rows[1..], cols).value;
      LengthEntriesComeFromRows(rows[1..], cols);
      assert ColumnLengths(rows, cols).value == first + rest;
      forall e | e in first + rest
        ensures exists row :: row in rows && ExtractLength(row.columnName, row.columnType) == Recorded(e)
      {
        if e in first {
          var k :| 0 <= k < |first| && first[k] == e;
          assert rows[0] in rows;
        } else {
          var row :| row in rows[1..] && ExtractLength(row.columnName, row.columnType) == Recorded(e);
          assert row in rows;
        }
      }
    }
  }

  /** At most one entry is recorded per (row, column) pair. */
  lemma {:induction false} LengthEntriesBound(rows: seq<CatalogRow>, cols: seq<Column>)
    requires ColumnLengths(rows, cols).Ok?
    ensures |ColumnLengths(rows, cols).value| <= |rows| * |cols|
  {
    if |rows| > 0 {
      LengthEntriesBound(rows[1..], cols);
      assert |rows| * |cols| == |cols| + (|rows| - 1) * |cols|;
    }
  }

  /** A catalog in which no type has a `)` records no lengths. */
  lemma {:induction false} NoParenthesesNoLengths(rows: seq<CatalogRow>, cols: seq<Column>)
    requires forall i :: 0 <= i < |rows| ==> ')' !in rows[i].columnType
    ensures ColumnLengths(rows, cols) == Ok([])
  {
    if |rows| > 0 {
      assert forall i :: 0 <= i < |rows| - 1 ==> rows[1..][i] == rows[i + 1];
      NoParenthesesNoLengths(rows[1..], cols);
      assert RowLengths(rows[0], cols) == Ok([]);
      var none: seq<ColumnLength> := [];
      assert none + none == none;
    }
  }

  /** A row that matches the only column records that row's length. */
  lemma SingleRowSingleColumn(row: CatalogRow, col: Column)
    requires Matches(col, row.columnName)
    requires ExtractLength(row.columnName, row.columnType).Recorded?
    ensures ColumnLengths([row], [col]) == Ok([ExtractLength(row.columnName, row.columnType).entry])
  {
    var e := ExtractLength(row.columnName, row.columnType).entry;
    var none: seq<Column> := [];
    assert [col][1..] == none;
    var noEntries: seq<ColumnLength> := [];
    assert RowLengths(row, [col]) == Ok([e] + noEntries);
    assert [e] + noEntries == [e];
    var noRows: seq<CatalogRow> := [];
    var rows := [row];
    assert rows[1..] == noRows && rows[0] == row;
    assert RowLengths(rows[0], [col]) == Ok([e]);
    assert ColumnLengths(rows[1..], [col]) == Ok(noEntries);
    assert ColumnLengths(rows, [col]) == Ok([e] + noEntries);
  }

  /** A one-row catalog for a one-column table with type `base(n)`
      records exactly the fact `(lower(name), n)`. */
  lemma SingleDeclaredLength(col: Column, base: string, n: Int64)
    requires '(' !in base
    ensures ColumnLengths([CatalogRow(col.name, base + "(" + IntToString(n) + ")")], [col])
         == Ok([ColumnLength(ToLower(col.name), n)])
  {
    var row := CatalogRow(col.name, base + "(" + IntToString(n) + ")");
    assert row.columnType == base + "(" + IntToString(n) + ")" + "";
    ExtractDeclaredLength(col.name, base, n, "");
    SingleRowSingleColumn(row, col);
  }
}

=== FILE: numbers.dfy ===
/** Decimal conversion as the generator uses it: `strconv.ParseInt(s, 10, 64)`
    with its error discarded, and the `%d` verb of `fmt.Sprintf`. */
module Numbers {

  const MaxUint64: int := 0xFFFF_FFFF_FFFF_FFFF
  const MaxInt64: int := 0x7FFF_FFFF_FFFF_FFFF
  const MinInt64: int := -0x8000_0000_0000_0000

  /** Go's `int64`. */
  type Int64 = x: int | MinInt64 <= x <= MaxInt64

  predicate IsDigit(c: char) {
    '0' <= c <= '9'
  }

  function DigitValue(c: char): nat
    requires IsDigit(c)
  {
    c as int - '0' as int
  }

  predicate AllDigits(s: string) {
    forall i :: 0 <= i < |s| ==> IsDigit(s[i])
  }

  /** The value of a digit string read from the left, starting from `acc`;
      the unbounded reference value that the scanner below must agree with. */
  function Fold(s: string, acc: nat): nat
    requires AllDigits(s)
  {
    if |s| == 0 then acc else Fold(s[1..], acc * 10 + DigitValue(s[0]))
  }

  /** What Go's base-10 `ParseUint` reports for a string. */
  datatype UintScan = Value(n: nat) | SyntaxError | RangeError

  /** The digit loop of `ParseUint(s, 10, 64)`: it stops at the first
      character that is not a decimal digit (a syntax error) or at the first
      digit that takes the value past the largest `uint64` (a range error),
      whichever comes first. */
  function ScanUint(s: string, acc: nat): (r: UintScan)
    requires acc <= MaxUint64
    ensures r.Value? ==> AllDigits(s) && r.n == Fold(s, acc) && r.n <= MaxUint64
    ensures AllDigits(s) && Fold(s, acc) <= MaxUint64 ==> r == Value(Fold(s, acc))
    ensures r.SyntaxError? ==> !AllDigits(s)
  {
    if |s| == 0 then Value(acc)
    else if !IsDigit(s[0]) then SyntaxError
    else
      var next := acc * 10 + DigitValue(s[0]);
      if next > MaxUint64 then
        if AllDigits(s[1..]) then FoldAtLeast(s[1..], next); RangeError else RangeError
      else ScanUint(s[1..], next)
  }

  /** Reading more digits never makes the value smaller. */
  lemma {:induction false} FoldAtLeast(s: string, acc: nat)
    requires AllDigits(s)
    ensures Fold(s, acc) >= acc
  {
    if |s| > 0 {
      FoldAtLeast(s[1..], acc * 10 + DigitValue(s[0]));
    }
  }

  /** `strconv.ParseInt(s, 10, 64)` with the error dropped: an optional sign,
      then the unsigned scan; a syntax error yields 0, and a value out of the
      `int64` range (including a `uint64` overflow) saturates. */
  function ParseInt64(s: string): (r: Int64)
    ensures r != 0 ==> |s| > 0
    ensures WellFormedDecimal(s) ==> r == Saturate(SignedValue(s))
    ensures !WellFormedDecimal(s) ==> r == 0 || r == MaxInt64 || r == MinInt64
  {
    if |s| == 0 then 0
    else
      var neg := s[0] == '-';
      var digits := if s[0] == '+' || s[0] == '-' then s[1..] else s;
      var scan := if |digits| == 0 then SyntaxError else ScanUint(digits, 0);
      match scan
      case SyntaxError => 0
      case RangeError => if neg then MinInt64 else MaxInt64
      case Value(n) =>
        if !neg && n > MaxInt64 then MaxInt64
        else if neg && n > -MinInt64 then MinInt64
        else if neg then 0 - n as int else n
  }

  /** An optional sign followed by at least one decimal digit. */
  predicate WellFormedDecimal(s: string) {
    |s| > 0 &&
    var digits := if s[0] == '+' || s[0] == '-' then s[1..] else s;
    |digits| > 0 && AllDigits(digits)
  }

  /** The mathematical value of a well-formed decimal. */
  function SignedValue(s: string): int
    requires WellFormedDecimal(s)
  {
    if s[0] == '-' then 0 - Fold(s[1..], 0) as int
    else if s[0] == '+' then Fold(s[1..], 0)
    else Fold(s, 0)
  }

  function Pow10(k: nat): (r: nat)
    ensures r >= 1
  {
    if k == 0 then 1 else 10 * Pow10(k - 1)
  }

  /** Fewer than twenty digits cannot overflow a `uint64`. */
  lemma {:induction false} ShortScanInRange(s: string, acc: nat, k: nat)
    requires acc < Pow10(k) && |s| + k <= 19
    ensures acc <= MaxUint64 && ScanUint(s, acc) != RangeError
  {
    Pow10Monotone(k, 19);
    Pow10Of19();
    if |s| > 0 && IsDigit(s[0]) {
      var next := acc * 10 + DigitValue(s[0]);
      assert next < Pow10(k + 1);
      assert Pow10(k + 1) <= Pow10(19) by { Pow10Monotone(k + 1, 19); }
      ShortScanInRange(s[1..], next, k + 1);
    }
  }

  lemma Pow10Of19()
    ensures Pow10(19) == 10_000_000_000_000_000_000
  {
    assert Pow10(2) == 100;
    assert Pow10(4) == 10_000;
    assert Pow10(6) == 1_000_000;
    assert Pow10(8) == 100_000_000;
    assert Pow10(10) == 10_000_000_000;
    assert Pow10(12) == 1_000_000_000_000;
    assert Pow10(14) == 100_000_000_000_000;
    assert Pow10(16) == 10_000_000_000_000_000;
    assert Pow10(18) == 1_000_000_000_000_000_000;
  }

  lemma {:induction false} Pow10Monotone(a: nat, b: nat)
    requires a <= b
    ensures Pow10(a) <= Pow10(b)
  {
    if a < b {
      Pow10Monotone(a, b - 1);
    }
  }

  /** A short malformed number parses to 0: the discarded error leaves the
      zero value rather than signalling "no length". */
  lemma ShortMalformedIsZero(s: string)
    requires |s| <= 19 && !WellFormedDecimal(s)
    ensures ParseInt64(s) == 0
  {
    if |s| > 0 {
      var digits := if s[0] == '+' || s[0] == '-' then s[1..] else s;
      if |digits| > 0 {
        ShortScanInRange(digits, 0, 0);
      }
    }
  }

  /** Once the digits read so far pass the largest `uint64`, the scan
      reports a range error, whatever characters follow them. */
  lemma {:induction false} OverflowBeforeJunk(s: string, acc: nat, junk: string)
    requires acc <= MaxUint64 && AllDigits(s) && Fold(s, acc) > MaxUint64
    ensures ScanUint(s + junk, acc) == RangeError
  {
    var t := s + junk;
    assert |s| > 0;
    assert t[0] == s[0];
    var next := acc * 10 + DigitValue(s[0]);
    if next <= MaxUint64 {
      assert t[1..] == s[1..] + junk;
      OverflowBeforeJunk(s[1..], next, junk);
    }
  }

  /** Digits whose value passes the largest `uint64` are clamped to the
      `int64` bound of their sign, not read as 0, even when a character
      that is not a digit follows them: the range error is reported first. */
  lemma OverflowingPrefixClamps(digits: string, junk: string)
    requires AllDigits(digits) && Fold(digits, 0) > MaxUint64
    ensures ParseInt64(digits + junk) == MaxInt64
    ensures ParseInt64("-" + digits + junk) == MinInt64
  {
    assert |digits| > 0;
    var pos := digits + junk;
    assert pos[0] == digits[0];
    OverflowBeforeJunk(digits, 0, junk);
    var neg := "-" + digits + junk;
    assert neg[1..] == pos;
  }

  /** Clamping into the `int64` range. */
  function Saturate(x: int): Int64 {
    if x > MaxInt64 then MaxInt64 else if x < MinInt64 then MinInt64 else x
  }

  function DigitChar(d: nat): (c: char)
    requires d < 10
    ensures IsDigit(c) && DigitValue(c) == d
  {
    ('0' as int + d) as char
  }

  /** The shortest decimal rendering of a natural number. */
  function NatToString(n: nat): (r: string)
    ensures |r| > 0 && AllDigits(r)
    ensures n > 0 ==> r[0] != '0'
  {
    if n < 10 then [DigitChar(n)] else NatToString(n / 10) + [DigitChar(n % 10)]
  }

  /** `fmt.Sprintf("%d", n)`. */
  function IntToString(n: int): (r: string)
    ensures |r| > 0
    ensures forall i :: 0 <= i < |r| ==> IsDigit(r[i]) || (i == 0 && r[i] == '-')
  {
    if n < 0 then "-" + NatToString(-n) else NatToString(n)
  }

  lemma {:induction false} FoldAppend(s: string, c: char, acc: nat)
    requires AllDigits(s) && IsDigit(c)
    ensures AllDigits(s + [c])
    ensures Fold(s + [c], acc) == Fold(s, acc) * 10 + DigitValue(c)
  {
    if |s| > 0 {
      assert (s + [c])[1..] == s[1..] + [c];
      FoldAppend(s[1..], c, acc * 10 + DigitValue(s[0]));
    }
  }

  /** Reading back the rendering of a natural number gives that number. */
  lemma {:induction false} FoldNatToString(n: nat)
    ensures Fold(NatToString(n), 0) == n
  {
    if n >= 10 {
      FoldNatToString(n / 10);
      FoldAppend(NatToString(n / 10), DigitChar(n % 10), 0);
    }
  }

  /** `ParseInt64` inverts `%d` on every `int64`. */
  lemma ParseIntToString(n: Int64)
    ensures ParseInt64(IntToString(n)) == n
  {
    var s := IntToString(n);
    if n < 0 {
      var m: nat := 0 - n;
      assert s == "-" + NatToString(m);
      assert s[1..] == NatToString(m);
      FoldNatToString(m);
      assert WellFormedDecimal(s);
      assert SignedValue(s) == n;
    } else {
      FoldNatToString(n);
      assert s[0] != '-' && s[0] != '+';
      assert WellFormedDecimal(s);
      assert SignedValue(s) == n;
    }
  }
}

=== FILE: schema.dfy ===
/** The records the generator works on, with the database handle replaced
    by the values it would have produced. */
module Schema {
  import opened Numbers

  /** A column as the database driver describes it (`*sql.ColumnType`):
      its name, its type name as the driver reports it (`VARCHAR`, `INT`,
      without the declared length) and the nullability `c.Nullable()`
      reports once its `ok` result is dropped (line 192), which is false
      whenever the driver cannot tell. */
  datatype Column = Column(name: string, dbTypeName: string, nullable: bool)

  /** `ColumnLength`: a lower-cased column name and its declared length. */
  datatype ColumnLength = ColumnLength(columnName: string, length: Int64)

  /** One row of `information_schema.columns`: the column's name and its
      full declared type (`varchar(255)`, `int(10) unsigned`). */
  datatype CatalogRow = CatalogRow(columnName: string, columnType: string)

  /** The generator's switches: the three annotation switches and the
      choice of guregu `null` types. */
  datatype Options = Options(
    jsonAnnotation: bool,
    gormAnnotation: bool,
    gureguTypes: bool,
    validateAnnotation: bool)
}

=== FILE: sequences.dfy ===
/** Keeping the defined images of a sequence, in order: the shape of a Go
    loop that `continue`s past some elements and appends the rest. */
module Sequences {
  import opened Wrappers

  function FilterMap<T, U>(xs: seq<T>, f: T -> Option<U>): (r: seq<U>)
    ensures |r| <= |xs|
    ensures (forall i :: 0 <= i < |xs| ==> f(xs[i]).Some?) ==> |r| == |xs|
    ensures (forall i :: 0 <= i < |xs| ==> f(xs[i]).None?) ==> r == []
  {
    if |xs| == 0 then []
    else
      assert forall i :: 0 <= i < |xs| - 1 ==> xs[1..][i] == xs[i + 1];
      match f(xs[0])
      case None => FilterMap(xs[1..], f)
      case Some(y) => [y] + FilterMap(xs[1..], f)
  }

  lemma {:induction false} FilterMapAppend<T, U>(a: seq<T>, b: seq<T>, f: T -> Option<U>)
    ensures FilterMap(a + b, f) == FilterMap(a, f) + FilterMap(b, f)
  {
    if |a| == 0 {
      assert a + b == b;
    } else {
      assert (a + b)[0] == a[0];
      assert (a + b)[1..] == a[1..] + b;
      FilterMapAppend(a[1..], b, f);
    }
  }

  /** A single element is kept exactly when it has an image. */
  lemma FilterMapSingle<T, U>(x: T, f: T -> Option<U>)
    ensures FilterMap([x], f) == if f(x).Some? then [f(x).value] else []
  {
    var none: seq<T> := [];
    assert [x][1..] == none;
  }

  /** The positions of the elements that have an image, in order. */
  function Sources<T, U>(xs: seq<T>, f: T -> Option<U>): (r: seq<nat>)
    ensures forall i :: 0 <= i < |r| ==> r[i] < |xs|
  {
    if |xs| == 0 then []
    else
      var tail := Sources(xs[1..], f);
      var shifted := seq(|tail|, i requires 0 <= i < |tail| => tail[i] + 1);
      if f(xs[0]).Some? then [0] + shifted else shifted
  }

  lemma {:induction false} SourcesLength<T, U>(xs: seq<T>, f: T -> Option<U>)
    ensures |Sources(xs, f)| == |FilterMap(xs, f)|
  {
    if |xs| > 0 {
      SourcesLength(xs[1..], f);
    }
  }

  /** Each result is the image of the element at its source position. */
  lemma {:induction false} SourcesImage<T, U>(xs: seq<T>, f: T -> Option<U>)
    ensures |Sources(xs, f)| == |FilterMap(xs, f)|
    ensures forall i :: 0 <= i < |Sources(xs, f)| ==> f(xs[Sources(xs, f)[i]]) == Some(FilterMap(xs, f)[i])
  {
    SourcesLength(xs, f);
    if |xs| > 0 {
      var tl := xs[1..];
      SourcesImage(tl, f);
      var src := Sources(xs, f);
      var r := FilterMap(xs, f);
      var tail := Sources(tl, f);
      var rest := FilterMap(tl, f);
      var k := if f(xs[0]).Some? then 1 else 0;
      assert |src| == k + |tail| && |r| == k + |rest|;
      forall i | k <= i < |src|
        ensures f(xs[src[i]]) == Some(r[i])
      {
        assert src[i] == tail[i - k] + 1;
        assert r[i] == rest[i - k];
        assert xs[src[i]] == tl[tail[i - k]];
      }
    }
  }

  /** Source positions strictly increase: the order is kept. */
  lemma {:induction false} SourcesIncreasing<T, U>(xs: seq<T>, f: T -> Option<U>)
    ensures forall i, j :: 0 <= i < j < |Sources(xs, f)| ==> Sources(xs, f)[i] < Sources(xs, f)[j]
  {
    if |xs| > 0 {
      SourcesIncreasing(xs[1..], f);
    }
  }

  /** Every element that has an image is a source: none is left out. */
  lemma {:induction false} SourcesComplete<T, U>(xs: seq<T>, f: T -> Option<U>)
    ensures forall k :: 0 <= k < |xs| && f(xs[k]).Some? ==> k in Sources(xs, f)
  {
    if |xs| > 0 {
      var tl := xs[1..];
      SourcesComplete(tl, f);
      var tail := Sources(tl, f);
      var src := Sources(xs, f);
      var d := if f(xs[0]).Some? then 1 else 0;
      forall k | 0 < k < |xs| && f(xs[k]).Some?
        ensures k in src
      {
        assert tl[k - 1] == xs[k];
        var i :| 0 <= i < |tail| && tail[i] == k - 1;
        assert src[d + i] == k;
      }
    }
  }

  /** The result is the image of the elements that have one, in their
      order, with none left out: `idx` says where each result came from. */
  lemma FilterMapImage<T, U>(xs: seq<T>, f: T -> Option<U>) returns (idx: seq<nat>)
    ensures |idx| == |FilterMap(xs, f)|
    ensures forall i :: 0 <= i < |idx| ==> (idx[i] < |xs| && f(xs[idx[i]]) == Some(FilterMap(xs, f)[i]))
    ensures forall i, j :: 0 <= i < j < |idx| ==> idx[i] < idx[j]
    ensures forall k :: 0 <= k < |xs| && f(xs[k]).Some? ==> k in idx
  {
    idx := Sources(xs, f);
    SourcesImage(xs, f);
    SourcesIncreasing(xs, f);
    SourcesComplete(xs, f);
  }
}

=== FILE: text.dfy ===
/** The small part of Go's `strings` package that the generator relies on,
    with strings modelled as sequences of characters. */
module Text {

  /** ASCII lower-casing of one character. */
  function LowerChar(c: char): char {
    if 'A' <= c <= 'Z' then (c as int - 'A' as int + 'a' as int) as char else c
  }

  predicate IsLowerCase(s: string) {
    forall i :: 0 <= i < |s| ==> !('A' <= s[i] <= 'Z')
  }

  /** `strings.ToLower`, restricted to ASCII letters. */
  function ToLower(s: string): (r: string)
    ensures |r| == |s|
    ensures IsLowerCase(r)
    ensures forall i :: 0 <= i < |s| && !('A' <= s[i] <= 'Z') ==> r[i] == s[i]
    ensures forall i :: 0 <= i < |s| && 'A' <= s[i] <= 'Z' ==> r[i] != s[i] && LowerChar(r[i]) == LowerChar(s[i])
  {
    if |s| == 0 then "" else [LowerChar(s[0])] + ToLower(s[1..])
  }

  /** `strings.Index` for a one-character needle: the first position of
      `c` in `s`, or -1 when `c` does not occur. */
  function IndexOf(s: string, c: char): (r: int)
    ensures r == -1 <==> c !in s
    ensures r != -1 ==> 0 <= r < |s| && s[r] == c
    ensures forall j :: 0 <= j < r ==> s[j] != c
  {
    if |s| == 0 then -1
    else if s[0] == c then 0
    else var k := IndexOf(s[1..], c); if k == -1 then -1 else k + 1
  }

  /** `strings.LastIndex` for a one-character needle: the last position of
      `c` in `s`, or -1 when `c` does not occur. */
  function LastIndexOf(s: string, c: char): (r: int)
    ensures r == -1 <==> c !in s
    ensures r != -1 ==> 0 <= r < |s| && s[r] == c
    ensures forall j :: r < j < |s| ==> s[j] != c
  {
    if |s| == 0 then -1
    else if s[|s| - 1] == c then |s| - 1
    else LastIndexOf(s[..|s| - 1], c)
  }

  /** `strings.Join`: the parts with `sep` between consecutive ones. */
  function Join(parts: seq<string>, sep: string): (r: string)
    ensures |parts| == 0 ==> r == ""
    ensures |parts| == 1 ==> r == parts[0]
  {
    if |parts| == 0 then ""
    else if |parts| == 1 then parts[0]
    else parts[0] + sep + Join(parts[1..], sep)
  }

  /** `strings.Split` for a one-character separator: the maximal pieces of
      `s` that do not contain `sep`, in order. Only used to state that
      `Join` loses nothing. */
  function Split(s: string, sep: char): (r: seq<string>)
    ensures |r| >= 1
    ensures forall i :: 0 <= i < |r| ==> sep !in r[i]
    decreases |s|
  {
    var k := IndexOf(s, sep);
    if k == -1 then [s] else [s[..k]] + Split(s[k + 1..], sep)
  }

  /** The first occurrence of `c` in `a + [c] + b` is right after `a` when
      `a` does not contain it. */
  lemma IndexOfAfterPrefix(a: string, c: char, b: string)
    requires c !in a
    ensures IndexOf(a + [c] + b, c) == |a|
  {
    var s := a + [c] + b;
    assert s[|a|] == c;
    assert forall j :: 0 <= j < |a| ==> s[j] == a[j];
  }

  /** Splitting at the first separator. */
  lemma SplitAt(a: string, sep: char, b: string)
    requires sep !in a
    ensures Split(a + [sep] + b, sep) == [a] + Split(b, sep)
  {
    var s := a + [sep] + b;
    IndexOfAfterPrefix(a, sep, b);
    assert s[..|a|] == a;
    assert s[|a| + 1..] == b;
  }

  /** Joining pieces that do not contain the separator can be undone by
      splitting on it. */
  lemma {:induction false} SplitJoin(parts: seq<string>, sep: char)
    requires |parts| >= 1
    requires forall i :: 0 <= i < |parts| ==> sep !in parts[i]
    ensures Split(Join(parts, [sep]), sep) == parts
  {
    if |parts| == 1 {
      assert IndexOf(parts[0], sep) == -1;
    } else {
      var rest := Join(parts[1..], [sep]);
      assert Join(parts, [sep]) == parts[0] + [sep] + rest;
      SplitAt(parts[0], sep, rest);
      SplitJoin(parts[1..], sep);
      assert parts == [parts[0]] + parts[1..];
    }
  }

  /** A character that occurs in no part and not in the separator does not
      occur in the joined string. */
  lemma {:induction false} JoinAvoids(parts: seq<string>, sep: string, c: char)
    requires c !in sep
    requires forall i :: 0 <= i < |parts| ==> c !in parts[i]
    ensures c !in Join(parts, sep)
  {
    if |parts| > 1 {
      JoinAvoids(parts[1..], sep, c);
    }
  }
}

=== FILE: type_map.dfy ===
/** The table from MySQL column types to Go field types
    (`sqlTypeToGoType`), with the empty string as the "unsupported" answer. */
module TypeMap {
  import opened Wrappers

  /** The Go type names the generator can emit. */
  datatype GoType =
    | ByteArray        // []byte
    | GureguNullInt    // null.Int
    | SqlNullInt       // sql.NullInt64
    | GoInt            // int
    | GoInt64          // int64
    | GureguNullFloat  // null.Float
    | SqlNullFloat     // sql.NullFloat64
    | GoFloat32        // float32
    | GoFloat64        // float64
    | GureguNullString // null.String
    | SqlNullString    // sql.NullString
    | GureguNullTime   // null.Time
    | GoTime           // time.Time
    | GoString         // string

  /** The constant `golangFloat`: declared next to the others but never
      produced by the mapper. */
  const GolangFloat: string := "float"

  /** The spelling of each type in generated code: never empty (the
      "unsupported" answer), never the unused `golangFloat`, and free of the
      backtick that delimits struct tags. */
  function Name(t: GoType): (r: string)
    ensures r != "" && r != GolangFloat
    ensures '`' !in r
  {
    match t
    case ByteArray => "[]byte"
    case GureguNullInt => "null.Int"
    case SqlNullInt => "sql.NullInt64"
    case GoInt => "int"
    case GoInt64 => "int64"
    case GureguNullFloat => "null.Float"
    case SqlNullFloat => "sql.NullFloat64"
    case GoFloat32 => "float32"
    case GoFloat64 => "float64"
    case GureguNullString => "null.String"
    case SqlNullString => "sql.NullString"
    case GureguNullTime => "null.Time"
    case GoTime => "time.Time"
    case GoString => "string"
  }

  /** Reads a type name back; the partner of `Name`. */
  function FromName(s: string): (r: Option<GoType>)
    ensures r.Some? ==> Name(r.value) == s
  {
    match s
    case "[]byte" => Some(ByteArray)
    case "null.Int" => Some(GureguNullInt)
    case "sql.NullInt64" => Some(SqlNullInt)
    case "int" => Some(GoInt)
    case "int64" => Some(GoInt64)
    case "null.Float" => Some(GureguNullFloat)
    case "sql.NullFloat64" => Some(SqlNullFloat)
    case "float32" => Some(GoFloat32)
    case "float64" => Some(GoFloat64)
    case "null.String" => Some(GureguNullString)
    case "sql.NullString" => Some(SqlNullString)
    case "null.Time" => Some(GureguNullTime)
    case "time.Time" => Some(GoTime)
    case "string" => Some(GoString)
    case _ => None
  }

  /** Every type's spelling reads back as that type, so no two types
      share a spelling. */
  lemma NameRoundTrip(t: GoType)
    ensures FromName(Name(t)) == Some(t)
  {
  }

  /** The seven case groups of the switch. */
  datatype Category = IntGroup | BigInt | TextGroup | DateTime | DecimalGroup | Float | Binary

  /** The MySQL type names listed in each case group. */
  function Members(c: Category): set<string> {
    match c
    case IntGroup => {"tinyint", "int", "smallint", "mediumint"}
    case BigInt => {"bigint"}
    case TextGroup => {"char", "enum", "varchar", "longtext", "mediumtext", "text", "tinytext"}
    case DateTime => {"date", "datetime", "time", "timestamp"}
    case DecimalGroup => {"decimal", "double"}
    case Float => {"float"}
    case Binary => {"binary", "blob", "longblob", "mediumblob", "varbinary"}
  }

  /** Every listed MySQL type name. */
  const Supported: set<string> :=
    Members(IntGroup) + Members(BigInt) + Members(TextGroup) + Members(DateTime)
    + Members(DecimalGroup) + Members(Float) + Members(Binary)

  /** Which case group of the switch a (lower-cased) MySQL type falls into. */
  function Classify(mysqlType: string): (r: Option<Category>)
    ensures r.None? <==> mysqlType !in Supported
    ensures r.Some? ==> mysqlType in Members(r.value)
  {
    match mysqlType
    case "tinyint" | "int" | "smallint" | "mediumint" => Some(IntGroup)
    case "bigint" => Some(BigInt)
    case "char" | "enum" | "varchar" | "longtext" | "mediumtext" | "text" | "tinytext" => Some(TextGroup)
    case "date" | "datetime" | "time" | "timestamp" => Some(DateTime)
    case "decimal" | "double" => Some(DecimalGroup)
    case "float" => Some(Float)
    case "binary" | "blob" | "longblob" | "mediumblob" | "varbinary" => Some(Binary)
    case _ => None
  }

  /** Each listed name is classified into its own group, so the groups do
      not overlap. */
  lemma ClassifyMembers(c: Category, mysqlType: string)
    requires mysqlType in Members(c)
    ensures Classify(mysqlType) == Some(c)
  {
    match c
    case IntGroup => ClassifyIntGroup(mysqlType);
    case BigInt =>
    case TextGroup => ClassifyTextGroup(mysqlType);
    case DateTime => ClassifyDateTime(mysqlType);
    case DecimalGroup => ClassifyDecimalGroup(mysqlType);
    case Float =>
    case Binary => ClassifyBinary(mysqlType);
  }

  lemma ClassifyIntGroup(mysqlType: string)
    requires mysqlType in Members(IntGroup)
    ensures Classify(mysqlType) == Some(IntGroup)
  {
    assert Classify("tinyint") == Some(IntGroup);
    assert Classify("int") == Some(IntGroup);
    assert Classify("smallint") == Some(IntGroup);
    assert Classify("mediumint") == Some(IntGroup);
  }

  lemma ClassifyTextGroup(mysqlType: string)
    requires mysqlType in Members(TextGroup)
    ensures Classify(mysqlType) == Some(TextGroup)
  {
    assert Classify("char") == Some(TextGroup);
    assert Classify("enum") == Some(TextGroup);
    assert Classify("varchar") == Some(TextGroup);
    assert Classify("longtext") == Some(TextGroup);
    assert Classify("mediumtext") == Some(TextGroup);
    assert Classify("text") == Some(TextGroup);
    assert Classify("tinytext") == Some(TextGroup);
  }

  lemma ClassifyDateTime(mysqlType: string)
    requires mysqlType in Members(DateTime)
    ensures Classify(mysqlType) == Some(DateTime)
  {
    assert Classify("date") == Some(DateTime);
    assert Classify("datetime") == Some(DateTime);
    assert Classify("time") == Some(DateTime);
    assert Classify("timestamp") == Some(DateTime);
  }

  lemma ClassifyDecimalGroup(mysqlType: string)
    requires mysqlType in Members(DecimalGroup)
    ensures Classify(mysqlType) == Some(DecimalGroup)
  {
    assert Classify("decimal") == Some(DecimalGroup);
    assert Classify("double") == Some(DecimalGroup);
  }

  lemma ClassifyBinary(mysqlType: string)
    requires mysqlType in Members(Binary)
    ensures Classify(mysqlType) == Some(Binary)
  {
    assert Classify("binary") == Some(Binary);
    assert Classify("blob") == Some(Binary);
    assert Classify("longblob") == Some(Binary);
    assert Classify("mediumblob") == Some(Binary);
    assert Classify("varbinary") == Some(Binary);
  }

  /** The Go types that represent a possibly-NULL value. */
  predicate IsNullWrapper(t: GoType) {
    t in {GureguNullInt, SqlNullInt, GureguNullFloat, SqlNullFloat,
          GureguNullString, SqlNullString, GureguNullTime}
  }

  /** The guregu `null` package's wrappers. */
  predicate IsGuregu(t: GoType) {
    t in {GureguNullInt, GureguNullFloat, GureguNullString, GureguNullTime}
  }

  /** The body of one case group. */
  function GroupType(c: Category, nullable: bool, gureguTypes: bool): (r: GoType)
    ensures c == Binary ==> r == ByteArray
    ensures IsNullWrapper(r) <==> nullable && c != Binary && (c != DateTime || gureguTypes)
    ensures IsGuregu(r) <==> nullable && gureguTypes && c != Binary
  {
    match c
    case IntGroup => if nullable then (if gureguTypes then GureguNullInt else SqlNullInt) else GoInt
    case BigInt => if nullable then (if gureguTypes then GureguNullInt else SqlNullInt) else GoInt64
    case TextGroup => if nullable then (if gureguTypes then GureguNullString else SqlNullString) else GoString
    case DateTime => if nullable && gureguTypes then GureguNullTime else GoTime
    case DecimalGroup => if nullable then (if gureguTypes then GureguNullFloat else SqlNullFloat) else GoFloat64
    case Float => if nullable then (if gureguTypes then GureguNullFloat else SqlNullFloat) else GoFloat32
    case Binary => ByteArray
  }

  /** The switch with its "unsupported" outcome made explicit. */
  function MapType(mysqlType: string, nullable: bool, gureguTypes: bool): (r: Option<GoType>)
    ensures r.None? <==> mysqlType !in Supported
    ensures r.Some? ==> exists c :: mysqlType in Members(c) && r.value == GroupType(c, nullable, gureguTypes)
  {
    match Classify(mysqlType)
    case None => None
    case Some(c) => Some(GroupType(c, nullable, gureguTypes))
  }

  /** `sqlTypeToGoType`: the Go type name, or "" when the type is not listed. */
  function SqlTypeToGoType(mysqlType: string, nullable: bool, gureguTypes: bool): (r: string)
    ensures r == "" <==> mysqlType !in Supported
    ensures r != GolangFloat
    ensures '`' !in r
  {
    match MapType(mysqlType, nullable, gureguTypes)
    case None => ""
    case Some(t) => Name(t)
  }

  /** A group member is mapped by its group's row of the table. */
  lemma MapTypeOfMember(c: Category, mysqlType: string, nullable: bool, gureguTypes: bool)
    requires mysqlType in Members(c)
    ensures SqlTypeToGoType(mysqlType, nullable, gureguTypes) == Name(GroupType(c, nullable, gureguTypes))
  {
    ClassifyMembers(c, mysqlType);
  }

  /** The binary/blob group maps to `[]byte` whatever the flags say. */
  lemma BinaryIgnoresFlags(mysqlType: string, nullable: bool, gureguTypes: bool)
    requires mysqlType in Members(Binary)
    ensures SqlTypeToGoType(mysqlType, nullable, gureguTypes) == "[]byte"
  {
    MapTypeOfMember(Binary, mysqlType, nullable, gureguTypes);
  }

  /** For a NOT NULL column `gureguTypes` makes no difference. */
  lemma NonNullableIgnoresGuregu(mysqlType: string)
    ensures SqlTypeToGoType(mysqlType, false, true) == SqlTypeToGoType(mysqlType, false, false)
  {
    if mysqlType in Supported {
      var c := Classify(mysqlType).value;
      MapTypeOfMember(c, mysqlType, false, true);
      MapTypeOfMember(c, mysqlType, false, false);
    }
  }

  /** The row of the integer group (`tinyint`, `int`, `smallint`, `mediumint`). */
  lemma IntRow(mysqlType: string, nullable: bool, gureguTypes: bool)
    requires mysqlType in Members(IntGroup)
    ensures SqlTypeToGoType(mysqlType, nullable, gureguTypes)
         == if !nullable then "int" else if gureguTypes then "null.Int" else "sql.NullInt64"
  {
    MapTypeOfMember(IntGroup, mysqlType, nullable, gureguTypes);
  }

  /** The row of `bigint`. */
  lemma BigIntRow(mysqlType: string, nullable: bool, gureguTypes: bool)
    requires mysqlType in Members(BigInt)
    ensures SqlTypeToGoType(mysqlType, nullable, gureguTypes)
         == if !nullable then "int64" else if gureguTypes then "null.Int" else "sql.NullInt64"
  {
    MapTypeOfMember(BigInt, mysqlType, nullable, gureguTypes);
  }

  /** The row of the text and enum group. */
  lemma TextRow(mysqlType: string, nullable: bool, gureguTypes: bool)
    requires mysqlType in Members(TextGroup)
    ensures SqlTypeToGoType(mysqlType, nullable, gureguTypes)
         == if !nullable then "string" else if gureguTypes then "null.String" else "sql.NullString"
  {
    MapTypeOfMember(TextGroup, mysqlType, nullable, gureguTypes);
  }

  /** The row of the date/time group; without guregu a nullable one falls back to `time.Time`. */
  lemma DateTimeRow(mysqlType: string, nullable: bool, gureguTypes: bool)
    requires mysqlType in Members(DateTime)
    ensures SqlTypeToGoType(mysqlType, nullable, gureguTypes)
         == if !nullable then "time.Time" else if gureguTypes then "null.Time" else "time.Time"
  {
    MapTypeOfMember(DateTime, mysqlType, nullable, gureguTypes);
  }

  /** The row of `decimal` and `double`. */
  lemma DecimalRow(mysqlType: string, nullable: bool, gureguTypes: bool)
    requires mysqlType in Members(DecimalGroup)
    ensures SqlTypeToGoType(mysqlType, nullable, gureguTypes)
         == if !nullable then "float64" else if gureguTypes then "null.Float" else "sql.NullFloat64"
  {
    MapTypeOfMember(DecimalGroup, mysqlType, nullable, gureguTypes);
  }

  /** The row of `float`. */
  lemma FloatRow(mysqlType: string, nullable: bool, gureguTypes: bool)
    requires mysqlType in Members(Float)
    ensures SqlTypeToGoType(mysqlType, nullable, gureguTypes)
         == if !nullable then "float32" else if gureguTypes then "null.Float" else "sql.NullFloat64"
  {
    MapTypeOfMember(Float, mysqlType, nullable, gureguTypes);
  }

  /** A non-empty answer reads back as the type the table chose. */
  lemma SqlTypeToGoTypeReadsBack(mysqlType: string, nullable: bool, gureguTypes: bool)
    requires mysqlType in Supported
    ensures FromName(SqlTypeToGoType(mysqlType, nullable, gureguTypes)) == MapType(mysqlType, nullable, gureguTypes)
  {
    NameRoundTrip(MapType(mysqlType, nullable, gureguTypes).value);
  }
}

=== FILE: wrappers.dfy ===
/** Failure-carrying datatypes shared by the model. */
module Wrappers {

  /** A value that may be absent: an unsupported column type, a type name
      that names no Go type. */
  datatype Option<+T> = None | Some(value: T)

  /** The outcome of a computation that the Go code may abort with a
      run-time panic (an out-of-range slice, for instance). */
  datatype Outcome<+T> = Ok(value: T) | Panic(reason: string)
}
